=== FILE: README.md ===
# Session-scoped todo storage, modelled in Dafny

This project models the core of a small todo client. The user signs in through a remote
identity provider. The todo list lives in memory and is mirrored into local storage under a
key derived from the signed-in user. Four pieces are modelled:

- **Todo list operations** (`Todos`): `addTodo`, `updateTodo`, `deleteTodo` and `toggleComplete`.
  They are pure functions over a sequence of records. A record is a map from field names to
  primitive JavaScript values; a missing field reads as `undefined`.
- **Storage synchronisation** (`Sync`, `SyncRuns`): the storage key `todoes_<user id>` and the
  four effects of the application component. The effects load after login, save on every
  change, clear memory on logout, and forget the user when signed out. They form a step
  function fired on three events: the session's `isAuthenticated` changed, the current-user
  fetch settled, or the list changed. Each step runs React's commits explicitly. A commit runs
  every effect whose dependencies changed, in declaration order, against one snapshot. The
  state updates are then applied together, and a second commit follows. Storage writes are
  logged in order.
- **Session state machine** (`Session`): `user` and `loading`, with `isAuthenticated` derived
  from `user`. It covers the one-shot probe on mount and the `login`, `signup` and `logout`
  transitions. Each transition takes how the provider's calls settled as a parameter and
  reports which provider calls it made.
- **The two forms** (`SignupPage`, `LoginPage`): the ordered signup validator, the mapping from
  error codes to messages, the loading/error flags around submit, and the field-change handlers.

`JsText` models `String.prototype.trim` and `length` (UTF-16 code units). `GuardedSync` is the
corrected synchronisation described under Findings.

The identity provider, local storage's JSON encoding, the clock behind `Date.now()` and React's
asynchronous scheduling are outside the model. Their results enter as parameters or as events:
provider outcomes and the user they return, the parsed stored lists, the generated id, and the
order in which effects and promise resolutions happen.

Three behaviours of the code are easy to misread; the model follows the code:

- `logout` clears the user only after the provider's logout resolves. If the provider call
  fails, the user stays (`Session.Logout`).
- A login that succeeds can still leave the session signed out, because the user is whatever
  `getCurrentUser` returns, possibly nothing (`Session.Login`).
- When the user fetch settles, the stored list is read before anything is saved. But the save
  effect in the same commit first writes the list held before the load. The loaded list is
  written back in the next commit (`Sync.LoadFollowsStaleSave`).

## Model

| member | source | states |
|---|---|---|
| Sync.StorageKey | src/App.jsx:28-29 | a storage key exists exactly when a user does, and it is `todoes_` followed by that user's id |
| Sync.KeysSeparateUsers | src/App.jsx:29 | two users share a storage key exactly when they share an id |
| Todos.AddTodo | src/App.jsx:33-35 | the new record is prepended and the old list is its tail; every caller field is kept; a caller `id` overrides the generated one |
| Todos.UpdateTodo | src/App.jsx:37-41 | length and order are kept; records with another id are unchanged; matching records get the patch's fields and keep the rest; with no match the list is returned unchanged |
| Todos.MapMatching | src/App.jsx:39 | the mapped list has the same length, and element by element it is the function applied to matching records and the record itself otherwise |
| Todos.DeleteTodo | src/App.jsx:43-45 | the result holds exactly the records whose id differs; it is no longer than the input; it has equal length exactly when nothing matched, and is then the input |
| Todos.DeleteDistributes | src/App.jsx:44 | deletion commutes with concatenation, so the records that survive keep their relative order |
| Todos.DeleteUndoesAdd | src/App.jsx:33-45 | deleting the generated id of a record just added, with no caller `id` and no earlier record with that id, gives back the original list |
| Todos.ToggleComplete | src/App.jsx:47-53 | only matching records change: `completed` becomes the boolean negation of its truthiness and every other field is kept; with no match the list is unchanged |
| Todos.ToggledInvolution | src/App.jsx:50 | flipping a boolean `completed` twice gives back the same record |
| Todos.ToggleTwiceRestores | src/App.jsx:47-53 | toggling the same id twice restores the list when every matching record's `completed` is a boolean |
| Todos.ToggleTwiceAddsCompleted | src/App.jsx:50 | a record without `completed` does not come back after two toggles: it gains `completed: false` |
| Sync.Step | src/App.jsx:58-101 | writes go only to the current user's key, and only while signed in with a resolved user; storage changes only through those writes; every observed change while ready is saved, and the last write stores the final list; logout empties memory and forgets the user without writing; any other authentication change keeps the user, so a sign-in keeps whatever user is held; `wasAuthenticated` becomes true on a sign-in, changes on nothing else, and is never reset; memory takes a stored list only by the load, which needs a signed-in, resolved user; otherwise the list is the one that arrived, or empty after logout; signing in while a user is held loads that user's list; a settled fetch becomes the user and, when signed in, a stored list replaces memory; a list operation changes only the list |
| Sync.StepSettles | src/App.jsx:58-101 | the updates made in the second commit change no dependency, so no third commit follows an event |
| Sync.LoadFollowsStaleSave | src/App.jsx:58-72 | when the fetch settles while signed in and a list is stored, the first write saves the list held before the load and the second saves the loaded list |
| SyncRuns.Mount | src/App.jsx:58-101 | mounting runs every effect while signed out: nothing is written and the state is empty |
| SyncRuns.StepKeepsValid | src/App.jsx:58-91 | every event keeps the invariant: signed in implies `wasAuthenticated`, and while ready, storage at the user's key equals memory |
| SyncRuns.RunKeepsValid | src/App.jsx:58-91 | any sequence of events keeps that invariant |
| SyncRuns.ReachableStatesValid | src/App.jsx:58-101 | every state reachable from mount satisfies the invariant |
| SyncRuns.SignedOutWritesNothing | src/App.jsx:58-91 | until the session signs in, no event writes anything and storage stays as it was |
| SyncRuns.MutationsPersist | src/App.jsx:33-72 | while signed in, a series of list operations is applied in order, and storage under the user's key always holds exactly the list in memory with no other key changed |
| SyncRuns.LogoutLoginRestores | src/App.jsx:58-101 | signing out and back in as the same user restores exactly the list last saved and leaves storage as it was |
| SyncRuns.SwitchUserKeepsListsApart | src/App.jsx:58-101 | after signing out as one user, and after signing in as another whose fetch has not settled, memory holds no list; once it settles it shows only the second user's stored list (or nothing) and writes only under the second user's key; the first user's list stays stored |
| SyncRuns.StaleUserLeaksAcrossSignIn | src/App.jsx:94-97 | a user fetch that settles after logout is applied; the next sign-in as another user with nothing stored shows the earlier user's list and saves it under the new user's key |
| SyncRuns.LateFetchLeaksFromMount | src/App.jsx:88-97 | from mount: A signs in and out before A's fetch settles, the fetch then settles with A, and B, who has nothing stored, signs in; B is shown A's stored list and it is saved under B's key |
| SyncRuns.HeldUserLeaksIntoNextSignIn | src/App.jsx:58-72 | a user held while signed out is kept by the next sign-in: that user's stored list is loaded, and once B resolves with nothing stored it is saved under B's key |
| SyncRuns.SignInWithNothingStored | src/App.jsx:58-97 | a user with nothing stored signs in: the list starts empty and an empty list is saved under that user's key |
| SyncRuns.AddToggleSignOut | src/App.jsx:33-79 | add then toggle while signed in: storage follows each change; sign-out empties memory and leaves the toggled list stored |
| GuardedSync.GuardedStep | src/App.jsx:88-101 | corrected fetch handling: a result from an older fetch, or one arriving signed out, is dropped; a fetch starts exactly when the session flips to signed in |
| GuardedSync.GuardedStepKeepsScoped | src/App.jsx:88-101 | with the guard, a user is held only while signed in, and only one delivered by the current sign-in's fetch; the storage invariant is kept too |
| GuardedSync.GuardedRunKeepsScoped | src/App.jsx:88-101 | the same holds for any sequence of events |
| GuardedSync.StaleFetchIgnored | src/App.jsx:88-101 | in the interleaving that leaks under the code as written, the guarded model shows the new user an empty list and writes only an empty list under the new key |
| GuardedSync.LateFetchIgnoredFromMount | src/App.jsx:88-101 | the same interleaving from mount under the guard, with A's fetch settling after logout and again after B signs in: both are dropped, B sees an empty list, and only that empty list is written under B's key |
| Session.Initial | src/context/AuthContext.jsx:7-8 | the session starts with no user, loading |
| Session.Probe | src/context/AuthContext.jsx:10-15 | the probe ends loading whatever it finds; a found user is adopted; none leaves the user as it was |
| Session.Login | src/context/AuthContext.jsx:22-26 | a rejected provider login changes nothing and fetches no user; a successful one fetches the current user and adopts it, possibly none, so success can leave the session signed out |
| Session.Signup | src/context/AuthContext.jsx:17-20 | account creation comes first; if it fails nothing changes and login is not reached; otherwise login runs with the same email and password, and the action succeeds exactly when both steps do |
| Session.Logout | src/context/AuthContext.jsx:28-31 | the user is forgotten only when the provider logout resolves; a rejected logout leaves the session as it was |
| Session.PerformAll | src/context/AuthContext.jsx:17-31 | no action ever changes `loading` |
| Session.Lifetime | src/context/AuthContext.jsx:7-15 | once the probe has settled, loading never comes back, whatever the user does |
| Session.PhasesAfterProbe | src/context/AuthContext.jsx:7-37 | the probe leads to the signed-in phase exactly when it finds a user; no action leads back to the initializing phase; a successful logout ends signed out |
| JsText.Trim | src/pages/Signup.jsx:18 | the result is a contiguous slice of the input with only whitespace cut off before and after it, and a non-empty result neither starts nor ends with whitespace |
| JsText.TrimStart | src/pages/Signup.jsx:18 | the result is the suffix that starts at the first non-whitespace character |
| JsText.TrimEnd | src/pages/Signup.jsx:18 | the result is the prefix that ends at the last non-whitespace character |
| JsText.TrimIgnoresPadding | src/pages/Signup.jsx:18 | whitespace added on either side does not change the trimmed string |
| JsText.Utf16Length | src/pages/Signup.jsx:18-24 | the length in code units is the number of characters plus the number of characters beyond the Basic Multilingual Plane, so between the character count and twice that |
| SignupPage.Initial | src/pages/Signup.jsx:7-14 | the form starts with empty fields, not loading, no error |
| SignupPage.Validate | src/pages/Signup.jsx:17-28 | empty exactly when the trimmed name has at least 2 code units, the email contains `@` and the password has at least 8 code units; otherwise the message names the first failing check in the order name, email, password |
| SignupPage.PaddedNameValidatesAlike | src/pages/Signup.jsx:18 | whitespace around the name does not change the validation result |
| SignupPage.PaddingDoesNotLengthenName | src/pages/Signup.jsx:18 | one character from the Basic Multilingual Plane, however padded, is rejected as too short |
| SignupPage.AstralCharacterIsLongEnough | src/pages/Signup.jsx:18 | a single character beyond the Basic Multilingual Plane counts as two code units and passes the name check |
| SignupPage.HandleChange | src/pages/Signup.jsx:56-59 | the edited field takes the new value, the other fields stay, and the error is cleared |
| SignupPage.SignupErrorMessage | src/pages/Signup.jsx:46-50 | code 409 gives the duplicate-user message; otherwise the error's own message if non-empty, else the generic one; never empty |
| SignupPage.HandleSubmit | src/pages/Signup.jsx:30-37 | a form that fails validation shows the message and stops: no provider call, no session change, `loading` untouched; a form that passes is submitted as `SignupPage.SubmitAccepted` states |
| SignupPage.SubmitAccepted | src/pages/Signup.jsx:39-53 | loading is shown while signup runs with the error cleared, the form's fields go to account creation, and loading ends with the fields kept; the error is empty exactly when signup and login both succeeded; a failure of either step is shown through the signup error mapping and leaves the session as it was; when both succeed, the session adopts the fetched user and nothing else changes |
| LoginPage.Initial | src/pages/Login.jsx:7-10 | the form starts empty, not loading, no error |
| LoginPage.LoginErrorMessage | src/pages/Login.jsx:38-45 | 401 and 404 get their own messages; other errors show their own message if non-empty, else the generic one; defined for every error and never empty |
| LoginPage.EditEmail | src/pages/Login.jsx:71-74 | only the email changes, and the error is cleared |
| LoginPage.EditPassword | src/pages/Login.jsx:84-87 | only the password changes, and the error is cleared |
| LoginPage.HandleSubmit | src/pages/Login.jsx:23-49 | the handler checks nothing itself: every invocation calls login with the typed credentials; loading is shown and the error cleared while the call runs; afterwards loading is off and the error is empty exactly when login succeeded; a rejection leaves the session as it was, and success adopts the fetched user and changes nothing else |

## Left out

- The identity provider wrapper (`src/services/authService.js`) is not part of this model. Its calls become `Outcome` parameters and the user they return. `getCurrentUser` reporting every failure as no user is taken as given.
- Local storage and JSON are reduced to a map from key to parsed list. Malformed stored text, which makes `JSON.parse` throw, is not modelled. Stored values that parse to other falsy values are not modelled either. `JSON.stringify` dropping `undefined` fields is not modelled.
- Todo field values are primitive: `undefined`, `null`, booleans, integers and strings. Floating-point numbers, `NaN`, nested objects and arrays are left out, so `===` is structural equality.
- `Date.now()` is a parameter of `AddTodo`, so uniqueness of generated ids is not modelled.
- React's scheduling is made explicit as two commits per event. Promise interleavings appear only as the order of events. A probe that settles after a form action is not modelled, because the forms are not shown while loading.
- All rendering is left out: the loading screen, the greeting, the view switch between the login and signup forms (`showSignup`), and disabled inputs.
- The browser's native form validation is not modelled. The inputs carry `required`, and the email inputs `type="email"` (src/pages/Login.jsx:69-89, src/pages/Signup.jsx:80-98). So an empty field or a malformed email stops the submit before `handleSubmit` runs, and the email check of `validate` is then unreachable from the form. `SignupPage.HandleSubmit` and `LoginPage.HandleSubmit` model the handlers as if invoked with any field values.
- Strings are sequences of Unicode scalar values. A JavaScript string holding an unpaired surrogate, which is one code unit, cannot be represented, so `JsText.Utf16Length` and `JsText.Trim` cover only well-formed strings.
- A rejection that is not an error object is not modelled. Reading `err.message` on it would throw.
- Todos.ToggleTwiceRestores: requires every matching record's `completed` to be a boolean, because `!t.completed` turns any other value into a boolean. `Todos.ToggleTwiceAddsCompleted` shows what happens otherwise.

## Findings

| source | as written | input that shows it | evidently intended | confidence | as-written member | corrected member |
|---|---|---|---|---|---|---|
| src/App.jsx:94-97 | the user-fetch result is applied with `setUser(userData)` whatever happened to the session after the fetch started | sign in as A; sign out before A's fetch settles; the fetch then settles with A; sign in as B, who has nothing stored | only the fetch started by the current sign-in sets the user, so A's list is never shown to B or saved under B's key | medium; not executed | SyncRuns.LateFetchLeaksFromMount | GuardedSync.GuardedStep |

`GuardedSync` numbers each fetch by the sign-in that started it. It applies a result only from the latest fetch and only while signed in. Every other transition is `Sync.Step` unchanged. `GuardedSync.GuardedRunKeepsScoped` proves that a user is then held only while signed in and only from the current sign-in. `SyncRuns.LateFetchLeaksFromMount` replays the input of the table from mount; `SyncRuns.StaleUserLeaksAcrossSignIn` shows the same leak from any signed-in state with a second fetch outstanding. `GuardedSync.LateFetchIgnoredFromMount` and `GuardedSync.StaleFetchIgnored` replay those interleavings under the guard and show B an empty list.

=== FILE: common.dfy ===
/** A value that may be absent: JavaScript's `null` for the user object and for a missing stored item. */
module Common {

  datatype Option<+T> = None | Some(value: T) {

    /** The value, or a default when absent. */
    function GetOr(default: T): T {
      match this
      case Some(v) => v
      case None => default
    }
  }
}

=== FILE: guarded_sync.dfy ===
/**
 * The storage synchronisation with the user fetch tied to the sign-in that started it.
 * Every flip of the session to signed-in starts a fetch numbered by `generation`; a
 * resolution is applied only if it comes from the latest fetch and the session is still
 * signed in. Everything else is `Sync.Step` unchanged.
 */
module GuardedSync {
  import opened Common
  import opened Provider
  import opened Todos
  import opened Sync
  import opened SyncRuns

  /** The component's state, the number of fetches started, and which fetch the user came from. */
  datatype Guarded = Guarded(app: AppState, generation: nat, resolvedIn: nat)

  datatype GuardedEvent =
    | Auth(isAuthenticated: bool)
    | Resolved(fetch: nat, user: Option<User>)   // the fetch numbered `fetch` settled
    | ListChanged(op: TodoOp)

  function GuardedStep(g: Guarded, e: GuardedEvent): (r: Guarded)
    // a resolution from an older fetch, or one that arrives signed out, is dropped
    ensures e.Resolved? && (e.fetch != g.generation || !g.app.isAuthenticated) ==> r == g
    // the latest fetch, arriving signed in, sets the user
    ensures e.Resolved? && e.fetch == g.generation && g.app.isAuthenticated ==>
      r.app.user == e.user && r.resolvedIn == g.generation
    // a fetch starts exactly when the session flips to signed in
    ensures r.generation == (if e == Auth(true) && !g.app.isAuthenticated then g.generation + 1 else g.generation)
    ensures e.Auth? ==> r.app.isAuthenticated == e.isAuthenticated
    ensures e.ListChanged? ==> r.app.todos == Apply(g.app.todos, e.op) && r.app.user == g.app.user
  {
    match e
    case Auth(a) =>
      var started := a && !g.app.isAuthenticated;
      Guarded(Step(g.app, AuthChanged(a)).state, if started then g.generation + 1 else g.generation, g.resolvedIn)
    case Resolved(fetch, u) =>
      if fetch == g.generation && g.app.isAuthenticated
      then Guarded(Step(g.app, UserResolved(u)).state, g.generation, fetch)
      else g
    case ListChanged(op) =>
      g.(app := Step(g.app, TodosChanged(op)).state)
  }

  /** A user is held only while signed in, and only one delivered by the current sign-in's fetch. */
  predicate Scoped(g: Guarded) {
    g.app.user.Some? ==> g.app.isAuthenticated && g.resolvedIn == g.generation
  }

  lemma GuardedStepKeepsScoped(g: Guarded, e: GuardedEvent)
    requires Scoped(g) && Valid(g.app)
    ensures Scoped(GuardedStep(g, e)) && Valid(GuardedStep(g, e).app)
  {
    match e
    case Auth(a) => StepKeepsValid(g.app, AuthChanged(a));
    case Resolved(fetch, u) => StepKeepsValid(g.app, UserResolved(u));
    case ListChanged(op) => StepKeepsValid(g.app, TodosChanged(op));
  }

  function GuardedRun(g: Guarded, es: seq<GuardedEvent>): Guarded
    decreases |es|
  {
    if |es| == 0 then g else GuardedRun(GuardedStep(g, es[0]), es[1..])
  }

  lemma {:induction false} GuardedRunKeepsScoped(g: Guarded, es: seq<GuardedEvent>)
    requires Scoped(g) && Valid(g.app)
    ensures Scoped(GuardedRun(g, es)) && Valid(GuardedRun(g, es).app)
    decreases |es|
  {
    if |es| > 0 {
      GuardedStepKeepsScoped(g, es[0]);
      GuardedRunKeepsScoped(GuardedStep(g, es[0]), es[1..]);
    }
  }

  /**
   * The interleaving of `SyncRuns.StaleUserLeaksAcrossSignIn`, with the old fetch settling
   * both after logout and again after the next sign-in: the new user sees an empty list, the
   * earlier user's saved list is untouched, and nothing reaches the new user's key but that empty list.
   */
  lemma StaleFetchIgnored(g: Guarded, b: User)
    requires Scoped(g) && Valid(g.app) && g.app.Ready()
    requires b.id != g.app.user.value.id && Key(b) !in g.app.store
    ensures var a := g.app.user;
            var r := GuardedRun(g, [Auth(false), Resolved(g.generation, a), Auth(true),
                                    Resolved(g.generation, a), Resolved(g.generation + 1, Some(b))]);
            && r.app.user == Some(b) && r.app.todos == []
            && r.app.store == g.app.store[Key(b) := []]
  {
    var a := g.app.user;
    var es := [Auth(false), Resolved(g.generation, a), Auth(true), Resolved(g.generation, a),
               Resolved(g.generation + 1, Some(b))];
    var g1 := GuardedStep(g, es[0]);
    var g2 := GuardedStep(g1, es[1]);
    var g3 := GuardedStep(g2, es[2]);
    var g4 := GuardedStep(g3, es[3]);
    var g5 := GuardedStep(g4, es[4]);
    KeysSeparateUsers(a.value, b);
    assert g1.app.todos == [] && g1.app.user.None? && g1.app.store == g.app.store;
    assert g2 == g1;
    assert g3.app.user.None? && g3.app.todos == [] && g3.app.store == g.app.store;
    assert g3.generation == g.generation + 1;
    assert g4 == g3;
    assert g5.app.todos == [];
    assert GuardedRun(g, es) == GuardedRun(g1, es[1..]) == GuardedRun(g2, es[2..])
        == GuardedRun(g3, es[3..]) == GuardedRun(g4, es[4..]) == GuardedRun(g5, []);
  }

  /**
   * The leaking interleaving of `SyncRuns.LateFetchLeaksFromMount` under the guard, with A's
   * fetch settling once after logout and once more after B signs in: both are dropped, B sees
   * an empty list, and only that empty list reaches B's key.
   */
  lemma LateFetchIgnoredFromMount(store: Store, a: User, b: User)
    requires a.id != b.id && Key(a) in store && Key(b) !in store
    ensures var r := GuardedRun(Guarded(Mount(store).state, 0, 0),
                                [Auth(true), Auth(false), Resolved(1, Some(a)), Auth(true),
                                 Resolved(1, Some(a)), Resolved(2, Some(b))]);
            && r.app.Ready() && r.app.user == Some(b) && r.app.todos == []
            && r.app.store == store[Key(b) := []]
  {
    var es := [Auth(true), Auth(false), Resolved(1, Some(a)), Auth(true), Resolved(1, Some(a)),
               Resolved(2, Some(b))];
    var g0 := Guarded(Mount(store).state, 0, 0);
    var g1 := GuardedStep(g0, es[0]);
    var g2 := GuardedStep(g1, es[1]);
    var g3 := GuardedStep(g2, es[2]);
    var g4 := GuardedStep(g3, es[3]);
    var g5 := GuardedStep(g4, es[4]);
    var g6 := GuardedStep(g5, es[5]);
    KeysSeparateUsers(a, b);
    assert g1.generation == 1 && g1.app.user.None? && g1.app.store == store;
    assert g2.app.user.None? && !g2.app.isAuthenticated && g2.app.store == store;
    assert g3 == g2;
    assert g4.generation == 2 && g4.app.user.None? && g4.app.todos == [] && g4.app.store == store;
    assert g5 == g4;
    assert g6.app.todos == [];
    assert GuardedRun(g0, es) == GuardedRun(g1, es[1..]) == GuardedRun(g2, es[2..])
        == GuardedRun(g3, es[3..]) == GuardedRun(g4, es[4..]) == GuardedRun(g5, es[5..])
        == GuardedRun(g6, []);
  }
}

=== FILE: jstext.dfy ===
/**
 * The two JavaScript string operations the signup validator relies on:
 * `String.prototype.trim` and `length`, which counts UTF-16 code units.
 */
module JsText {

  /** WhiteSpace and LineTerminator code points of ECMAScript, the set `trim` removes. */
  predicate IsTrimmable(c: char) {
    || c == '\t' || c == '\n' || c == '\U{000B}' || c == '\U{000C}' || c == '\r' || c == ' '
    || c == '\U{00A0}' || c == '\U{1680}' || ('\U{2000}' <= c <= '\U{200A}')
    || c == '\U{2028}' || c == '\U{2029}' || c == '\U{202F}' || c == '\U{205F}'
    || c == '\U{3000}' || c == '\U{FEFF}'
  }

  predicate AllTrimmable(s: string) {
    forall i :: 0 <= i < |s| ==> IsTrimmable(s[i])
  }

  /** Drops leading whitespace: the result is the suffix that starts at the first other character. */
  function TrimStart(s: string): (r: string)
    ensures |r| <= |s| && r == s[|s| - |r|..]
    ensures AllTrimmable(s[..|s| - |r|])
    ensures |r| > 0 ==> !IsTrimmable(r[0])
  {
    if |s| > 0 && IsTrimmable(s[0]) then TrimStart(s[1..]) else s
  }

  /** Drops trailing whitespace: the result is the prefix that ends at the last other character. */
  function TrimEnd(s: string): (r: string)
    ensures |r| <= |s| && r == s[..|r|]
    ensures AllTrimmable(s[|r|..])
    ensures |r| > 0 ==> !IsTrimmable(r[|r| - 1])
  {
    if |s| > 0 && IsTrimmable(s[|s| - 1]) then TrimEnd(s[..|s| - 1]) else s
  }

  /** `r` is `s` with whitespace only cut off: the first `i` characters and those after `r`. */
  predicate InnerSlice(s: string, r: string, i: int) {
    && 0 <= i <= |s| - |r| && r == s[i..i + |r|]
    && AllTrimmable(s[..i]) && AllTrimmable(s[i + |r|..])
  }

  /**
   * `s.trim()`: an inner slice of `s` whose ends are not whitespace, with only whitespace
   * cut off on either side.
   */
  function Trim(s: string): (r: string)
    ensures |r| <= |s|
    ensures |r| > 0 ==> !IsTrimmable(r[0]) && !IsTrimmable(r[|r| - 1])
    ensures exists i :: InnerSlice(s, r, i)
  {
    TrimIsInnerSlice(s, TrimStart(s), TrimEnd(TrimStart(s)));
    TrimEnd(TrimStart(s))
  }

  /** A prefix of a suffix is a slice, with whatever was cut off on either side kept whitespace. */
  lemma TrimIsInnerSlice(s: string, t: string, r: string)
    requires |t| <= |s| && t == s[|s| - |t|..] && AllTrimmable(s[..|s| - |t|])
    requires |r| <= |t| && r == t[..|r|] && AllTrimmable(t[|r|..])
    ensures exists i :: InnerSlice(s, r, i)
  {
    var i := |s| - |t|;
    assert t[|r|..] == s[i + |r|..];
    assert InnerSlice(s, r, i);
  }

  /** How many characters of `s` lie beyond the Basic Multilingual Plane, counted from the back. */
  function CountAstral(s: string): nat {
    if |s| == 0 then 0 else CountAstral(s[..|s| - 1]) + (if s[|s| - 1] as int > 0xFFFF then 1 else 0)
  }

  /** Counting from the front gives the same number. */
  lemma {:induction false} CountAstralFront(s: string)
    requires |s| > 0
    ensures CountAstral(s) == (if s[0] as int > 0xFFFF then 1 else 0) + CountAstral(s[1..])
    decreases |s|
  {
    if |s| > 1 {
      var init := s[..|s| - 1];
      CountAstralFront(init);
      assert init[1..] == s[1..][..|s[1..]| - 1];
    } else {
      assert s[..|s| - 1] == [] && s[1..] == [];
    }
  }

  /** `s.length`: characters outside the Basic Multilingual Plane take two UTF-16 code units. */
  function Utf16Length(s: string): (n: nat)
    ensures |s| <= n <= 2 * |s|
    ensures (forall i :: 0 <= i < |s| ==> s[i] as int <= 0xFFFF) ==> n == |s|
    ensures n == |s| + CountAstral(s)
  {
    if |s| == 0 then 0 else
      CountAstralFront(s);
      (if s[0] as int > 0xFFFF then 2 else 1) + Utf16Length(s[1..])
  }

  lemma BeyondBmpIsNotTrimmable(c: char)
    requires c as int > 0xFFFF
    ensures !IsTrimmable(c)
  {
  }

  /** A single character other than whitespace survives `trim` unchanged. */
  lemma SingleCharacterTrim(c: char)
    requires !IsTrimmable(c)
    ensures Trim([c]) == [c]
  {
    assert TrimStart([c]) == [c];
    assert TrimEnd([c]) == [c];
  }

  /** One character beyond the Basic Multilingual Plane is a surrogate pair. */
  lemma BeyondBmpIsTwoUnits(c: char)
    requires c as int > 0xFFFF
    ensures Utf16Length([c]) == 2
  {
    assert [c][1..] == [];
  }

  /** One character of the Basic Multilingual Plane is one code unit. */
  lemma WithinBmpIsOneUnit(c: char)
    requires c as int <= 0xFFFF
    ensures Utf16Length([c]) == 1
  {
    assert [c][1..] == [];
  }

  lemma {:induction false} TrimStartSkipsPadding(p: string, s: string)
    requires AllTrimmable(p)
    ensures TrimStart(p + s) == TrimStart(s)
    decreases |p|
  {
    if |p| > 0 {
      assert (p + s)[1..] == p[1..] + s;
      TrimStartSkipsPadding(p[1..], s);
    } else {
      assert p + s == s;
    }
  }

  lemma {:induction false} TrimEndSkipsPadding(s: string, q: string)
    requires AllTrimmable(q)
    ensures TrimEnd(s + q) == TrimEnd(s)
    decreases |q|
  {
    if |q| > 0 {
      assert (s + q)[..|s + q| - 1] == s + q[..|q| - 1];
      TrimEndSkipsPadding(s, q[..|q| - 1]);
    } else {
      assert s + q == s;
    }
  }

  /** Trimming the front of `s + q` stops inside `s` unless `s` is all whitespace. */
  lemma {:induction false} TrimStartOfAppend(s: string, q: string)
    ensures AllTrimmable(s) ==> TrimStart(s + q) == TrimStart(q)
    ensures !AllTrimmable(s) ==> TrimStart(s + q) == TrimStart(s) + q
    decreases |s|
  {
    if |s| == 0 {
      assert s + q == q;
    } else if IsTrimmable(s[0]) {
      assert (s + q)[1..] == s[1..] + q;
      TrimStartOfAppend(s[1..], q);
      AllTrimmableOfTail(s);
    } else {
      assert (s + q)[0] == s[0];
    }
  }

  /** A non-empty string is all whitespace exactly when its head is and its tail is. */
  lemma AllTrimmableOfTail(s: string)
    requires |s| > 0
    ensures AllTrimmable(s) <==> IsTrimmable(s[0]) && AllTrimmable(s[1..])
  {
    if IsTrimmable(s[0]) && AllTrimmable(s[1..]) {
      forall i | 0 <= i < |s|
        ensures IsTrimmable(s[i])
      {
        if i > 0 {
          assert s[i] == s[1..][i - 1];
        }
      }
    }
  }

  /** Whitespace padding on either side does not change what `trim` yields. */
  lemma {:induction false} TrimIgnoresPadding(p: string, s: string, q: string)
    requires AllTrimmable(p) && AllTrimmable(q)
    ensures Trim(p + s + q) == Trim(s)
  {
    assert p + s + q == p + (s + q);
    TrimStartSkipsPadding(p, s + q);
    TrimStartOfAppend(s, q);
    if AllTrimmable(s) {
      TrimStartSkipsPadding(s, []);
      assert s + [] == s;
      TrimStartSkipsPadding(q, []);
      assert q + [] == q;
    } else {
      TrimEndSkipsPadding(TrimStart(s), q);
    }
  }
}

=== FILE: login_page.dfy ===
/**
 * The login form: no client-side validation, the submit handler's loading and error
 * flags, its error-code mapping, and the field-change handlers. Submitting goes through
 * `Session.Login`.
 */
module LoginPage {
  import opened Common
  import opened Provider
  import Session

  datatype Page = Page(email: string, password: string, loading: bool, error: string)

  function Initial(): (p: Page)
    ensures p.email == "" && p.password == "" && !p.loading && p.error == ""
  {
    Page("", "", false, "")
  }

  const InvalidCredentials := "Invalid email or password"
  const UserNotFound := "User not found"
  const LoginFailed := "Login failed"

  /** The message shown when login rejects: defined for every error, never empty. */
  function LoginErrorMessage(e: AuthError): (msg: string)
    ensures msg != ""
    ensures e.code == Some(401) ==> msg == InvalidCredentials
    ensures e.code == Some(404) ==> msg == UserNotFound
    ensures e.code != Some(401) && e.code != Some(404) ==>
      msg == (if e.message != "" then e.message else LoginFailed)
  {
    if e.code == Some(401) then InvalidCredentials
    else if e.code == Some(404) then UserNotFound
    else if e.message != "" then e.message
    else LoginFailed
  }

  /** Typing in the email field: only the email changes, and the error clears. */
  function EditEmail(page: Page, value: string): (r: Page)
    ensures r.email == value && r.password == page.password
    ensures r.loading == page.loading && r.error == ""
  {
    page.(email := value, error := "")
  }

  /** Typing in the password field: only the password changes, and the error clears. */
  function EditPassword(page: Page, value: string): (r: Page)
    ensures r.password == value && r.email == page.email
    ensures r.loading == page.loading && r.error == ""
  {
    page.(password := value, error := "")
  }

  /**
   * What the submit handler did: the page while the login call was outstanding, the page
   * afterwards, the session, and the provider calls made.
   */
  datatype Submitted = Submitted(pending: Page, page: Page, session: Session.SessionState, calls: seq<ProviderCall>)

  /**
   * `handleSubmit`: whatever was typed, loading is set and the error cleared, `login` runs
   * with the typed email and password, a rejection becomes a message, and loading is cleared.
   */
  function HandleSubmit(page: Page, s: Session.SessionState, established: Outcome, current: Option<User>): (r: Submitted)
    ensures r.pending.loading && r.pending.error == ""
    ensures !r.page.loading
    ensures r.page.email == page.email && r.page.password == page.password
    ensures |r.calls| >= 1 && r.calls[0] == CreateSession(page.email, page.password)
    ensures r.page.error == "" <==> established.Ok?
    ensures established.Err? ==> r.page.error == LoginErrorMessage(established.error) && r.session == s
    ensures established.Ok? ==> r.session == s.(user := current)
  {
    var busy := page.(loading := true, error := "");
    var reply := Session.Login(s, busy.email, busy.password, established, current);
    var error := if reply.outcome.Err? then LoginErrorMessage(reply.outcome.error) else busy.error;
    Submitted(busy, busy.(loading := false, error := error), reply.state, reply.calls)
  }
}

=== FILE: provider.dfy ===
/**
 * The identity provider as the rest of the application sees it: the records it returns,
 * the errors it rejects with, and the calls made to it. The provider itself is not modelled;
 * every result it produces enters the model as a parameter.
 */
module Provider {
  import opened Common

  /** The account record returned by `getCurrentUser`: `$id`, `name`, `email`. */
  datatype User = User(id: string, name: string, email: string)

  /**
   * A rejected provider call: its numeric `code`, when it has one, and its `message`.
   * An absent or empty `message` is the empty string (both are falsy in `err.message || …`).
   */
  datatype AuthError = AuthError(code: Option<int>, message: string)

  /** How a provider call settled: resolved, or rejected with an error. */
  datatype Outcome = Ok | Err(error: AuthError)

  /** The provider operations the session manager invokes, with their arguments. */
  datatype ProviderCall =
    | CreateAccount(email: string, password: string, name: string)
    | CreateSession(email: string, password: string)
    | FetchCurrentUser
    | DeleteSessions
}

=== FILE: session.dfy ===
/**
 * The session provider: the signed-in user and the loading flag, with `isAuthenticated`
 * derived from the user. The initial probe and the `signup`, `login` and `logout` actions are
 * transitions whose effect depends on how the identity provider's calls settled, which the
 * model takes as parameters. Each action also reports the provider calls it made, in order.
 */
module Session {
  import opened Common
  import opened Provider

  datatype SessionState = SessionState(user: Option<User>, loading: bool) {

    /** `isAuthenticated: !!user`: derived from the user, never stored. */
    predicate IsAuthenticated() {
      user.Some?
    }
  }

  /** Before the probe settles: no user, loading. */
  function Initial(): (s: SessionState)
    ensures !s.IsAuthenticated() && s.loading
  {
    SessionState(None, true)
  }

  /**
   * The one-shot probe on mount: `getCurrentUser()` settled with `found` (the provider
   * reports any failure as no user). A user found is adopted; none leaves the user as it
   * was. Either way loading ends.
   */
  function Probe(s: SessionState, found: Option<User>): (r: SessionState)
    ensures !r.loading
    ensures found.Some? ==> r.IsAuthenticated() && r.user == found
    ensures found.None? ==> r.user == s.user
  {
    SessionState(if found.Some? then found else s.user, false)
  }

  /** The new state, how the action's promise settled, and the provider calls it made. */
  datatype Reply = Reply(state: SessionState, outcome: Outcome, calls: seq<ProviderCall>)

  /**
   * `login({ email, password })`: opens a provider session and, only if that succeeds,
   * fetches the current user and adopts whatever comes back, possibly no user at all.
   */
  function Login(s: SessionState, email: string, password: string, established: Outcome, current: Option<User>): (r: Reply)
    ensures r.outcome == established
    ensures r.state.loading == s.loading
    ensures |r.calls| >= 1 && r.calls[0] == CreateSession(email, password)
    ensures established.Err? ==> r.state == s && r.calls == [CreateSession(email, password)]
    ensures established.Ok? ==> r.state.user == current && (r.state.IsAuthenticated() <==> current.Some?)
    ensures established.Ok? ==> r.calls == [CreateSession(email, password), FetchCurrentUser]
  {
    match established
    case Err(_) => Reply(s, established, [CreateSession(email, password)])
    case Ok => Reply(s.(user := current), Ok, [CreateSession(email, password), FetchCurrentUser])
  }

  /**
   * `signup(data)`: creates the account and, only if that succeeds, logs in with the same
   * email and password.
   */
  function Signup(s: SessionState, name: string, email: string, password: string,
                  created: Outcome, established: Outcome, current: Option<User>): (r: Reply)
    ensures |r.calls| >= 1 && r.calls[0] == CreateAccount(email, password, name)
    ensures r.outcome.Ok? <==> created.Ok? && established.Ok?
    ensures r.state.loading == s.loading
    ensures created.Err? ==> r.state == s && r.outcome == created && |r.calls| == 1
    ensures created.Ok? ==> |r.calls| >= 2 && r.calls[1] == CreateSession(email, password)
    ensures created.Ok? && established.Ok? ==> r.state.user == current
    ensures created.Ok? && established.Err? ==> r.state == s && r.outcome == established
  {
    match created
    case Err(_) => Reply(s, created, [CreateAccount(email, password, name)])
    case Ok =>
      var login := Login(s, email, password, established, current);
      Reply(login.state, login.outcome, [CreateAccount(email, password, name)] + login.calls)
  }

  /** `logout()`: forgets the user only once the provider has deleted the sessions. */
  function Logout(s: SessionState, deleted: Outcome): (r: Reply)
    ensures r.outcome == deleted && r.calls == [DeleteSessions]
    ensures r.state.loading == s.loading
    ensures deleted.Ok? ==> !r.state.IsAuthenticated()
    ensures deleted.Err? ==> r.state == s
  {
    match deleted
    case Err(_) => Reply(s, deleted, [DeleteSessions])
    case Ok => Reply(s.(user := None), Ok, [DeleteSessions])
  }

  /** A user action together with how the provider calls it makes will settle. */
  datatype Action =
    | DoLogin(email: string, password: string, established: Outcome, current: Option<User>)
    | DoSignup(name: string, email: string, password: string, created: Outcome, established: Outcome, current: Option<User>)
    | DoLogout(deleted: Outcome)

  function Perform(s: SessionState, a: Action): Reply {
    match a
    case DoLogin(email, password, established, current) => Login(s, email, password, established, current)
    case DoSignup(name, email, password, created, established, current) =>
      Signup(s, name, email, password, created, established, current)
    case DoLogout(deleted) => Logout(s, deleted)
  }

  /** The state after a sequence of actions: no action ever touches `loading`. */
  function PerformAll(s: SessionState, actions: seq<Action>): (r: SessionState)
    ensures r.loading == s.loading
    decreases |actions|
  {
    if |actions| == 0 then s else PerformAll(Perform(s, actions[0]).state, actions[1..])
  }

  /**
   * The session's life: the probe settles first (the forms are not shown while loading),
   * then the user acts. Loading never comes back.
   */
  function Lifetime(found: Option<User>, actions: seq<Action>): (r: SessionState)
    ensures !r.loading
  {
    PerformAll(Probe(Initial(), found), actions)
  }

  /** The three phases of the session: probing, signed out, signed in. */
  datatype Phase = Initializing | Unauthenticated | Authenticated

  function PhaseOf(s: SessionState): Phase {
    if s.loading then Initializing
    else if s.IsAuthenticated() then Authenticated
    else Unauthenticated
  }

  /**
   * The probe leaves `Initializing` for `Authenticated` exactly when it finds a user, and
   * no action leads back to `Initializing`.
   */
  lemma {:induction false} PhasesAfterProbe(found: Option<User>, actions: seq<Action>)
    ensures PhaseOf(Probe(Initial(), found)) == (if found.Some? then Authenticated else Unauthenticated)
    ensures PhaseOf(Lifetime(found, actions)) != Initializing
    ensures |actions| > 0 && actions[|actions| - 1].DoLogout? && actions[|actions| - 1].deleted.Ok? ==>
      PhaseOf(Lifetime(found, actions)) == Unauthenticated
  {
    if |actions| > 0 {
      var before := actions[..|actions| - 1];
      var last := actions[|actions| - 1];
      assert actions == before + [last];
      PerformAllSnoc(Probe(Initial(), found), before, last);
    }
  }

  lemma {:induction false} PerformAllSnoc(s: SessionState, actions: seq<Action>, a: Action)
    ensures PerformAll(s, actions + [a]) == Perform(PerformAll(s, actions), a).state
    decreases |actions|
  {
    if |actions| == 0 {
      assert actions + [a] == [a];
    } else {
      assert (actions + [a])[0] == actions[0];
      assert (actions + [a])[1..] == actions[1..] + [a];
      PerformAllSnoc(Perform(s, actions[0]).state, actions[1..], a);
    }
  }
}

=== FILE: signup_page.dfy ===
/**
 * The signup form: its ordered validator, the submit handler's gating and error messages,
 * and the field-change handler. Submitting goes through `Session.Signup`.
 */
module SignupPage {
  import opened Common
  import opened Provider
  import opened JsText
  import Session

  datatype Field = Name | Email | Password

  datatype Form = Form(name: string, email: string, password: string) {

    function Get(f: Field): string {
      match f
      case Name => name
      case Email => email
      case Password => password
    }
  }

  /** The form, the `loading` flag and the `error` text shown above the form. */
  datatype Page = Page(form: Form, loading: bool, error: string)

  function Initial(): (p: Page)
    ensures !p.loading && p.error == ""
    ensures forall f: Field :: p.form.Get(f) == ""
  {
    Page(Form("", "", ""), false, "")
  }

  const NameTooShort := "Name must be at least 2 characters"
  const InvalidEmail := "Please enter a valid email"
  const PasswordTooShort := "Password must be at least 8 characters"
  const DuplicateUser := "User already exists with this email"
  const SignupFailed := "Something went wrong"

  /** The name counts after trimming; `length` counts UTF-16 code units. */
  predicate NameAccepted(name: string) {
    Utf16Length(Trim(name)) >= 2
  }

  /** The email is taken as typed and only needs an `@`. */
  predicate EmailAccepted(email: string) {
    '@' in email
  }

  /** The password is taken as typed, spaces included. */
  predicate PasswordAccepted(password: string) {
    Utf16Length(password) >= 8
  }

  /**
   * `validate()`: the empty string when the form is acceptable, otherwise the message of
   * the first check that fails, checking the name, then the email, then the password.
   */
  function Validate(form: Form): (msg: string)
    ensures msg == "" <==> NameAccepted(form.name) && EmailAccepted(form.email) && PasswordAccepted(form.password)
    ensures msg == NameTooShort <==> !NameAccepted(form.name)
    ensures msg == InvalidEmail <==> NameAccepted(form.name) && !EmailAccepted(form.email)
    ensures msg == PasswordTooShort <==>
      NameAccepted(form.name) && EmailAccepted(form.email) && !PasswordAccepted(form.password)
  {
    if !NameAccepted(form.name) then NameTooShort
    else if !EmailAccepted(form.email) then InvalidEmail
    else if !PasswordAccepted(form.password) then PasswordTooShort
    else ""
  }

  /** Whitespace around the name neither helps nor hurts the validation. */
  lemma PaddedNameValidatesAlike(form: Form, p: string, q: string)
    requires AllTrimmable(p) && AllTrimmable(q)
    ensures Validate(form.(name := p + form.name + q)) == Validate(form)
  {
    TrimIgnoresPadding(p, form.name, q);
  }

  /** A name of one character from the Basic Multilingual Plane is too short, however it is padded. */
  lemma PaddingDoesNotLengthenName(form: Form, c: char, p: string, q: string)
    requires AllTrimmable(p) && AllTrimmable(q) && !IsTrimmable(c) && c as int <= 0xFFFF
    ensures Validate(form.(name := p + [c] + q)) == NameTooShort
  {
    var name := p + [c] + q;
    TrimIgnoresPadding(p, [c], q);
    SingleCharacterTrim(c);
    assert Trim(name) == [c];
    WithinBmpIsOneUnit(c);
    assert Utf16Length(Trim(name)) == 1;
    assert !NameAccepted(name);
  }

  /** A single character outside the Basic Multilingual Plane is two code units long, so it passes as a name. */
  lemma AstralCharacterIsLongEnough(c: char)
    requires c as int > 0xFFFF
    ensures NameAccepted([c])
  {
    BeyondBmpIsNotTrimmable(c);
    SingleCharacterTrim(c);
    BeyondBmpIsTwoUnits(c);
  }

  /** `handleChange(field, value)`: that field changes, the others stay, the error clears. */
  function HandleChange(page: Page, field: Field, value: string): (r: Page)
    ensures r.form.Get(field) == value
    ensures forall f: Field :: f != field ==> r.form.Get(f) == page.form.Get(f)
    ensures r.error == "" && r.loading == page.loading
  {
    var form :=
      match field
      case Name => page.form.(name := value)
      case Email => page.form.(email := value)
      case Password => page.form.(password := value);
    page.(form := form, error := "")
  }

  /** The message shown when signup rejects: never empty. */
  function SignupErrorMessage(e: AuthError): (msg: string)
    ensures msg != ""
    ensures e.code == Some(409) ==> msg == DuplicateUser
    ensures e.code != Some(409) && e.message != "" ==> msg == e.message
    ensures e.code != Some(409) && e.message == "" ==> msg == SignupFailed
  {
    if e.code == Some(409) then DuplicateUser
    else if e.message != "" then e.message
    else SignupFailed
  }

  /**
   * What the submit handler did: the page while the signup call was outstanding (none when
   * no call was made), the page afterwards, the session, and the provider calls made.
   */
  datatype Submitted = Submitted(pending: Option<Page>, page: Page, session: Session.SessionState, calls: seq<ProviderCall>)

  /**
   * `handleSubmit` once `validate()` has passed: loading is set and the error cleared,
   * `signup(form)` runs, a rejection from either provider step is turned into a message,
   * and loading is cleared.
   */
  function SubmitAccepted(page: Page, s: Session.SessionState,
                          created: Outcome, established: Outcome, current: Option<User>): (r: Submitted)
    ensures r.pending.Some? && r.pending.value.loading && r.pending.value.error == ""
    ensures r.pending.value.form == page.form && r.page.form == page.form && !r.page.loading
    ensures |r.calls| >= 1 && r.calls[0] == CreateAccount(page.form.email, page.form.password, page.form.name)
    ensures r.page.error == "" <==> created.Ok? && established.Ok?
    // a failed account creation, or a login step that fails after it, goes through the same mapping
    ensures created.Err? ==> r.page.error == SignupErrorMessage(created.error) && r.session == s
    ensures created.Ok? && established.Err? ==>
      r.page.error == SignupErrorMessage(established.error) && r.session == s
    // once both steps succeed, the session adopts the fetched user and keeps `loading`
    ensures created.Ok? && established.Ok? ==> r.session == s.(user := current)
  {
    var busy := page.(loading := true, error := "");
    var reply := Session.Signup(s, busy.form.name, busy.form.email, busy.form.password,
                                created, established, current);
    var error := if reply.outcome.Err? then SignupErrorMessage(reply.outcome.error) else busy.error;
    Submitted(Some(busy), busy.(loading := false, error := error), reply.state, reply.calls)
  }

  /**
   * `handleSubmit`: a form that fails validation shows the message and stops, without
   * calling signup or touching `loading`; a form that passes is submitted.
   */
  function HandleSubmit(page: Page, s: Session.SessionState,
                        created: Outcome, established: Outcome, current: Option<User>): (r: Submitted)
    ensures Validate(page.form) != "" ==>
      r.pending.None? && r.page == page.(error := Validate(page.form)) && r.session == s && r.calls == []
    ensures Validate(page.form) == "" ==> r == SubmitAccepted(page, s, created, established, current)
  {
    var invalid := Validate(page.form);
    if invalid != "" then
      Submitted(None, page.(error := invalid), s, [])
    else
      SubmitAccepted(page, s, created, established, current)
  }
}

=== FILE: sync.dfy ===
/**
 * The storage synchronisation of the application component: the per-user storage key and
 * the four effects (load after login, save on every change, clear on logout, forget the user
 * when signed out) as a step function fired on three events: the session's authentication
 * flag changed, the current-user fetch resolved, the todo list changed.
 *
 * React's scheduling is made explicit. A commit runs every effect whose dependency list
 * changed, in declaration order, against the same snapshot of the state; the state updates
 * those effects request are applied together afterwards, and a second commit runs the
 * effects whose dependencies those updates changed. A third commit is never needed
 * (`StepSettles`). Storage writes are logged in the order they happen.
 */
module Sync {
  import opened Common
  import opened Provider
  import opened Todos

  /** Local storage with its JSON already parsed: storage key to stored list. */
  type Store = map<string, seq<Todo>>

  const KeyPrefix: string := "todoes_"

  /** The storage key of one user, `todoes_${user.$id}`. */
  function Key(u: User): (k: string)
    ensures |k| == |KeyPrefix| + |u.id|
    ensures k[..|KeyPrefix|] == KeyPrefix && k[|KeyPrefix|..] == u.id
  {
    KeyPrefix + u.id
  }

  /** `todoStorageKey`: a key exists exactly when a user does. */
  function StorageKey(user: Option<User>): (k: Option<string>)
    ensures k.Some? <==> user.Some?
    ensures k.Some? ==> |k.value| == |KeyPrefix| + |user.value.id|
    ensures k.Some? ==> k.value[..|KeyPrefix|] == KeyPrefix && k.value[|KeyPrefix|..] == user.value.id
  {
    match user
    case Some(u) => Some(Key(u))
    case None => None
  }

  /** Two users share a storage key exactly when they share an id. */
  lemma KeysSeparateUsers(a: User, b: User)
    ensures Key(a) == Key(b) <==> a.id == b.id
  {
    if Key(a) == Key(b) {
      assert a.id == Key(a)[|KeyPrefix|..];
    }
  }

  /** One `localStorage.setItem` of a whole list. */
  datatype Write = Write(key: string, value: seq<Todo>)

  /** The store after a series of writes, applied in order. */
  function Replay(store: Store, writes: seq<Write>): Store
    decreases |writes|
  {
    if |writes| == 0 then store else Replay(store[writes[0].key := writes[0].value], writes[1..])
  }

  lemma {:induction false} ReplayAppend(store: Store, a: seq<Write>, b: seq<Write>)
    ensures Replay(store, a + b) == Replay(Replay(store, a), b)
    decreases |a|
  {
    if |a| == 0 {
      assert a + b == b;
    } else {
      assert (a + b)[0] == a[0];
      assert (a + b)[1..] == a[1..] + b;
      ReplayAppend(store[a[0].key := a[0].value], a[1..], b);
    }
  }

  /**
   * What the component holds: the session's `isAuthenticated`, its own `user`, `todos` and
   * `wasAuthenticated`, and local storage.
   */
  datatype AppState = AppState(
    isAuthenticated: bool,
    user: Option<User>,
    todos: seq<Todo>,
    wasAuthenticated: bool,
    store: Store)
  {
    /** The guard of the load and save effects, `isAuthenticated && user`. */
    predicate Ready() {
      isAuthenticated && user.Some?
    }
  }

  /** Which effect dependencies changed in the render being committed. */
  datatype Changed = Changed(auth: bool, user: bool, todos: bool, was: bool)

  const NothingChanged := Changed(false, false, false, false)

  datatype Commit = Commit(state: AppState, changed: Changed, writes: seq<Write>)

  /** One commit of the effects against the snapshot `s`, given which dependencies changed. */
  function Render(s: AppState, d: Changed): Commit {
    var key := StorageKey(s.user);
    // load after login, dependencies [isAuthenticated, user]
    var loaded :=
      if (d.auth || d.user) && s.isAuthenticated && key.Some? && key.value in s.store
      then Some(s.store[key.value]) else None;
    // save on every change, dependencies [todos, isAuthenticated, user]
    var writes :=
      if (d.todos || d.auth || d.user) && s.isAuthenticated && key.Some? then [Write(key.value, s.todos)] else [];
    // clear on logout and remember a sign-in, dependencies [isAuthenticated, wasAuthenticated]
    var clear := (d.auth || d.was) && s.wasAuthenticated && !s.isAuthenticated;
    var remember := (d.auth || d.was) && s.isAuthenticated;
    // forget the user when signed out, dependencies [isAuthenticated]; when signed in this
    // effect starts the fetch whose result arrives later as `UserResolved`
    var forget := clear || (d.auth && !s.isAuthenticated);
    // the load needs a signed-in snapshot and the clear a signed-out one, so at most one applies
    var todos := if clear then Some([]) else loaded;
    Commit(
      AppState(
        s.isAuthenticated,
        if forget then None else s.user,
        todos.GetOr(s.todos),
        s.wasAuthenticated || remember,
        Replay(s.store, writes)),
      // every `setTodos` passes a new array; `setUser(null)` and `setWasAuthenticated(true)`
      // change nothing when the value is already there
      Changed(false, forget && s.user.Some?, todos.Some?, remember && !s.wasAuthenticated),
      writes)
  }

  /** What happens to the component from outside. */
  datatype Event =
    | AuthChanged(isAuthenticated: bool)   // the session's `isAuthenticated` now reads this
    | UserResolved(user: Option<User>)     // `getCurrentUser()` settled (a rejection is `None`)
    | TodosChanged(op: TodoOp)             // one of the four list operations was called

  /** The state the component re-renders with when `e` arrives. */
  function Arrived(s: AppState, e: Event): AppState {
    match e
    case AuthChanged(a) => s.(isAuthenticated := a)
    case UserResolved(u) => s.(user := u)
    case TodosChanged(op) => s.(todos := Apply(s.todos, op))
  }

  /** Whether React sees a changed dependency when `e` arrives (a new user object always differs). */
  predicate Observed(s: AppState, e: Event) {
    match e
    case AuthChanged(a) => a != s.isAuthenticated
    case UserResolved(u) => u.Some? || s.user.Some?
    case TodosChanged(_) => true
  }

  function Touched(s: AppState, e: Event): Changed {
    match e
    case AuthChanged(a) => Changed(a != s.isAuthenticated, false, false, false)
    case UserResolved(u) => Changed(false, u.Some? || s.user.Some?, false, false)
    case TodosChanged(_) => Changed(false, false, true, false)
  }

  datatype StepResult = StepResult(state: AppState, writes: seq<Write>)

  /** The two commits that follow an event, and the storage writes they make. */
  function Commits(s: AppState, e: Event): StepResult {
    var first := Render(Arrived(s, e), Touched(s, e));
    var second := Render(first.state, first.changed);
    StepResult(second.state, first.writes + second.writes)
  }

  /**
   * Storage changes only through the logged writes, each to the current user's key while that
   * user is signed in and resolved; the last leaves the whole list there; every observed change
   * while ready is saved; an event React does not observe changes nothing.
   */
  predicate WritesScoped(s: AppState, e: Event, r: StepResult) {
    var a := Arrived(s, e);
    // the session alone decides `isAuthenticated`
    && r.state.isAuthenticated == a.isAuthenticated
    && r.state.store == Replay(s.store, r.writes)
    && (forall w :: w in r.writes ==> a.Ready() && w.key == Key(a.user.value))
    && (r.writes != [] ==> a.Ready() && r.state.store == s.store[Key(a.user.value) := r.state.todos])
    && (a.Ready() && Observed(s, e) ==> r.writes != [])
    && (!Observed(s, e) ==> r.state == a && r.writes == [])
  }

  /**
   * Logout empties memory and forgets the user without writing; any other authentication
   * change keeps the user, so a sign-in keeps whatever user is held; `wasAuthenticated` is
   * set by a sign-in, by nothing else, and never reset.
   */
  predicate SessionFollowed(s: AppState, e: Event, r: StepResult) {
    && (e == AuthChanged(false) && s.isAuthenticated && s.wasAuthenticated ==>
          r.state.todos == [] && r.state.user.None? && r.writes == [] && r.state.store == s.store)
    && (e.AuthChanged? ==>
          r.state.user == (if !e.isAuthenticated && s.isAuthenticated then None else s.user))
    && r.state.wasAuthenticated == (s.wasAuthenticated || (e == AuthChanged(true) && !s.isAuthenticated))
  }

  /**
   * Memory takes a stored list only through the load, which needs a signed-in, resolved user;
   * otherwise the list is the one that arrived or, on logout, the empty one. Signing in while a
   * user is held loads that user's list; a resolved fetch becomes the user and, when signed in,
   * its stored list replaces memory; a list operation changes the list and nothing else.
   */
  predicate TodosSourced(s: AppState, e: Event, r: StepResult) {
    var a := Arrived(s, e);
    && (|| r.state.todos == a.todos
        || (a.Ready() && Key(a.user.value) in s.store && r.state.todos == s.store[Key(a.user.value)])
        || (e == AuthChanged(false) && s.wasAuthenticated && r.state.todos == []))
    && (e == AuthChanged(true) && !s.isAuthenticated && s.user.Some? && Key(s.user.value) in s.store ==>
          r.state.todos == s.store[Key(s.user.value)])
    && (e.UserResolved? ==> r.state.user == e.user)
    && (e.UserResolved? && e.user.Some? && s.isAuthenticated ==>
          r.state.todos == (if Key(e.user.value) in s.store then s.store[Key(e.user.value)] else s.todos))
    && (e.TodosChanged? ==>
          r.state.todos == Apply(s.todos, e.op) && r.state.user == s.user
          && r.state.wasAuthenticated == s.wasAuthenticated)
  }

  lemma CommitsWrite(s: AppState, e: Event)
    ensures WritesScoped(s, e, Commits(s, e))
  {
    var first := Render(Arrived(s, e), Touched(s, e));
    var second := Render(first.state, first.changed);
    ReplayAppend(s.store, first.writes, second.writes);
    assert second.state.todos == first.state.todos;
  }

  lemma CommitsSession(s: AppState, e: Event)
    ensures SessionFollowed(s, e, Commits(s, e))
  {
  }

  lemma CommitsTodos(s: AppState, e: Event)
    ensures TodosSourced(s, e, Commits(s, e))
  {
    FirstCommitTodos(s, e);
  }

  /** Everything that follows one event: the commits it causes and the storage writes they make. */
  function Step(s: AppState, e: Event): (r: StepResult)
    ensures WritesScoped(s, e, r)
    ensures SessionFollowed(s, e, r)
    ensures TodosSourced(s, e, r)
  {
    CommitsWrite(s, e);
    CommitsSession(s, e);
    CommitsTodos(s, e);
    Commits(s, e)
  }

  /** Where the list in memory comes from after the first commit of an event. */
  lemma FirstCommitTodos(s: AppState, e: Event)
    ensures var a := Arrived(s, e);
            var t := Render(a, Touched(s, e)).state.todos;
            || t == a.todos
            || (a.Ready() && Key(a.user.value) in s.store && t == s.store[Key(a.user.value)])
            || (e == AuthChanged(false) && s.wasAuthenticated && t == [])
    ensures e == AuthChanged(true) && !s.isAuthenticated && s.user.Some? && Key(s.user.value) in s.store ==>
      Render(Arrived(s, e), Touched(s, e)).state.todos == s.store[Key(s.user.value)]
  {
  }

  /** The updates of the second commit change no dependency, so no third commit follows. */
  lemma StepSettles(s: AppState, e: Event)
    ensures var first := Render(Arrived(s, e), Touched(s, e));
            Render(first.state, first.changed).changed == NothingChanged
  {
  }

  /**
   * A fetch that resolves while signed in saves the list held before the load first, then the
   * loaded list in the next commit: the load is read before any save, but is not the first write.
   */
  lemma LoadFollowsStaleSave(s: AppState, u: User)
    requires s.isAuthenticated && s.user.None? && Key(u) in s.store
    ensures Step(s, UserResolved(Some(u))).writes == [Write(Key(u), s.todos), Write(Key(u), s.store[Key(u)])]
  {
  }
}

=== FILE: sync_runs.dfy ===
/**
 * Runs of the storage synchronisation: sequences of events from mount onwards, the
 * invariant every reachable state keeps, and the sign-in / sign-out scenarios it implies.
 */
module SyncRuns {
  import opened Common
  import opened Provider
  import opened Todos
  import opened Sync

  /** The state after a sequence of events. */
  function Run(s: AppState, es: seq<Event>): AppState
    decreases |es|
  {
    if |es| == 0 then s else Run(Step(s, es[0]).state, es[1..])
  }

  /** Every storage write made along a sequence of events, in order. */
  function RunWrites(s: AppState, es: seq<Event>): seq<Write>
    decreases |es|
  {
    if |es| == 0 then [] else Step(s, es[0]).writes + RunWrites(Step(s, es[0]).state, es[1..])
  }

  /**
   * What every reachable state keeps: a session that is signed in has been noticed, and
   * while signed in with a resolved user, storage under that user's key equals memory.
   */
  predicate Valid(s: AppState) {
    && (s.isAuthenticated ==> s.wasAuthenticated)
    && (s.Ready() ==> Key(s.user.value) in s.store && s.store[Key(s.user.value)] == s.todos)
  }

  /** The first commit after mounting: every effect runs once while the session is still loading. */
  function Mount(store: Store): (r: StepResult)
    ensures r.writes == []
    ensures r.state == AppState(false, None, [], false, store)
  {
    var s := AppState(false, None, [], false, store);
    var first := Render(s, Changed(true, true, true, true));
    var second := Render(first.state, first.changed);
    StepResult(second.state, first.writes + second.writes)
  }

  lemma StepKeepsValid(s: AppState, e: Event)
    requires Valid(s)
    ensures Valid(Step(s, e).state)
  {
  }

  lemma {:induction false} RunKeepsValid(s: AppState, es: seq<Event>)
    requires Valid(s)
    ensures Valid(Run(s, es))
    decreases |es|
  {
    if |es| > 0 {
      StepKeepsValid(s, es[0]);
      RunKeepsValid(Step(s, es[0]).state, es[1..]);
    }
  }

  /** Every state reachable from mount keeps the invariant. */
  lemma ReachableStatesValid(store: Store, es: seq<Event>)
    ensures Valid(Run(Mount(store).state, es))
  {
    RunKeepsValid(Mount(store).state, es);
  }

  /** Until the session signs in, nothing is written to storage, whatever else happens. */
  lemma {:induction false} SignedOutWritesNothing(s: AppState, es: seq<Event>)
    requires !s.isAuthenticated
    requires forall i :: 0 <= i < |es| ==> es[i] != AuthChanged(true)
    ensures RunWrites(s, es) == []
    ensures Run(s, es).store == s.store && !Run(s, es).isAuthenticated
    decreases |es|
  {
    if |es| > 0 {
      var next := Step(s, es[0]).state;
      assert !Arrived(s, es[0]).Ready();
      SignedOutWritesNothing(next, es[1..]);
    }
  }

  /** A series of list operations, as events. */
  function Mutations(ops: seq<TodoOp>): (es: seq<Event>)
    ensures |es| == |ops|
    ensures forall i :: 0 <= i < |ops| ==> es[i] == TodosChanged(ops[i])
  {
    if |ops| == 0 then [] else [TodosChanged(ops[0])] + Mutations(ops[1..])
  }

  function ApplyAll(todos: seq<Todo>, ops: seq<TodoOp>): seq<Todo>
    decreases |ops|
  {
    if |ops| == 0 then todos else ApplyAll(Apply(todos, ops[0]), ops[1..])
  }

  /**
   * While signed in with a resolved user, list operations are applied in order and storage
   * under that user's key always holds exactly the list in memory; no other key changes.
   */
  lemma {:induction false} MutationsPersist(s: AppState, ops: seq<TodoOp>)
    requires Valid(s) && s.Ready()
    ensures var r := Run(s, Mutations(ops));
            && r.todos == ApplyAll(s.todos, ops)
            && r.user == s.user && r.isAuthenticated
            && r.store == s.store[Key(s.user.value) := r.todos]
    decreases |ops|
  {
    var es := Mutations(ops);
    if |ops| == 0 {
      assert s.store[Key(s.user.value) := s.todos] == s.store;
    } else {
      var next := Step(s, es[0]).state;
      StepKeepsValid(s, es[0]);
      assert es[1..] == Mutations(ops[1..]);
      MutationsPersist(next, ops[1..]);
    }
  }

  /** Signing out and back in as the same user restores exactly the list last saved. */
  lemma LogoutLoginRestores(s: AppState)
    requires Valid(s) && s.Ready()
    ensures var r := Run(s, [AuthChanged(false), AuthChanged(true), UserResolved(s.user)]);
            r.Ready() && r.user == s.user && r.todos == s.todos && r.store == s.store
  {
    var es := [AuthChanged(false), AuthChanged(true), UserResolved(s.user)];
    var s1 := Step(s, es[0]).state;
    var s2 := Step(s1, es[1]).state;
    var s3 := Step(s2, es[2]).state;
    assert s1.todos == [] && s1.user.None? && s1.store == s.store;
    assert s2.user.None? && s2.store == s.store;
    assert s3.todos == s.todos;
    assert s3.store == s.store;
    assert Run(s, es) == Run(s1, es[1..]) == Run(s2, es[2..]) == Run(s3, []);
  }

  /**
   * Signing out as one user and in as another never shows the first user's list and never
   * writes anywhere but the second user's key; the first user's saved list stays as it was.
   */
  lemma SwitchUserKeepsListsApart(s: AppState, b: User)
    requires Valid(s) && s.Ready() && b.id != s.user.value.id
    ensures var es := [AuthChanged(false), AuthChanged(true), UserResolved(Some(b))];
            var r := Run(s, es);
            && r.todos == (if Key(b) in s.store then s.store[Key(b)] else [])
            && r.store == s.store[Key(b) := r.todos]
            && r.store[Key(s.user.value)] == s.todos
            && forall w :: w in RunWrites(s, es) ==> w.key == Key(b)
    // while the second user is still being resolved, memory holds no list at all
    ensures var es := [AuthChanged(false), AuthChanged(true), UserResolved(Some(b))];
            Run(s, es[..1]).todos == [] && Run(s, es[..2]).todos == []
  {
    var es := [AuthChanged(false), AuthChanged(true), UserResolved(Some(b))];
    var s1 := Step(s, es[0]).state;
    var s2 := Step(s1, es[1]).state;
    var s3 := Step(s2, es[2]).state;
    KeysSeparateUsers(s.user.value, b);
    assert s1.todos == [] && s1.user.None? && s1.store == s.store;
    assert s2.user.None? && s2.store == s.store && s2.todos == [];
    assert Step(s, es[0]).writes == [] && Step(s1, es[1]).writes == [];
    assert Run(s, es) == Run(s1, es[1..]) == Run(s2, es[2..]) == Run(s3, []);
    assert RunWrites(s, es) == RunWrites(s1, es[1..]);
    assert RunWrites(s1, es[1..]) == RunWrites(s2, es[2..]);
    assert RunWrites(s2, es[2..]) == Step(s2, es[2]).writes + RunWrites(s3, []);
    assert es[..1][1..] == [] && es[..2][1..] == [es[1]] && [es[1]][1..] == [];
    assert Run(s, es[..1]) == Run(s1, []);
    assert Run(s, es[..2]) == Run(s1, [es[1]]) == Run(s2, []);
  }

  /**
   * A user fetch that settles after logout is still applied (`setUser(userData)` is
   * unconditional). The next sign-in, by anyone, then loads the earlier user's list, and if
   * the new user has nothing stored that list is saved under the new user's key.
   */
  lemma StaleUserLeaksAcrossSignIn(s: AppState, b: User)
    requires Valid(s) && s.Ready() && s.todos != [] && b.id != s.user.value.id && Key(b) !in s.store
    ensures var r := Run(s, [AuthChanged(false), UserResolved(s.user), AuthChanged(true), UserResolved(Some(b))]);
            r.Ready() && r.user == Some(b) && r.todos == s.todos
            && Key(b) in r.store && r.store[Key(b)] == s.todos
  {
    var es := [AuthChanged(false), UserResolved(s.user), AuthChanged(true), UserResolved(Some(b))];
    var s1 := Step(s, es[0]).state;
    var s2 := Step(s1, es[1]).state;
    var s3 := Step(s2, es[2]).state;
    var s4 := Step(s3, es[3]).state;
    KeysSeparateUsers(s.user.value, b);
    assert s1.todos == [] && s1.store == s.store;
    assert s2.user == s.user && !s2.isAuthenticated && s2.store == s.store;
    assert s3.todos == s.todos;
    assert s3.store == s.store;
    assert s4.todos == s.todos;
    assert Run(s, es) == Run(s1, es[1..]) == Run(s2, es[2..]) == Run(s3, es[3..]) == Run(s4, []);
  }

  /**
   * The same leak from mount: A signs in and out before A's fetch settles, the fetch then
   * settles with A, and B, who has nothing stored, signs in. B is shown A's list, and that
   * list is saved under B's key.
   */
  lemma LateFetchLeaksFromMount(store: Store, a: User, b: User)
    requires a.id != b.id && Key(a) in store && Key(b) !in store
    ensures var r := Run(Mount(store).state, [AuthChanged(true), AuthChanged(false), UserResolved(Some(a)),
                                              AuthChanged(true), UserResolved(Some(b))]);
            && r.Ready() && r.user == Some(b) && r.todos == store[Key(a)]
            && Key(b) in r.store && r.store[Key(b)] == store[Key(a)]
  {
    var early := [AuthChanged(true), AuthChanged(false), UserResolved(Some(a))];
    var late := [AuthChanged(true), UserResolved(Some(b))];
    var s0 := Mount(store).state;
    RunAppend(s0, early, late);
    assert early + late == [AuthChanged(true), AuthChanged(false), UserResolved(Some(a)),
                            AuthChanged(true), UserResolved(Some(b))];
    LateFetchLeavesUserHeld(store, a);
    HeldUserLeaksIntoNextSignIn(Run(s0, early), b);
  }

  /** From mount, A signs in and out and A's fetch settles afterwards: A is held while signed out. */
  lemma LateFetchLeavesUserHeld(store: Store, a: User)
    ensures Run(Mount(store).state, [AuthChanged(true), AuthChanged(false), UserResolved(Some(a))])
            == AppState(false, Some(a), [], true, store)
  {
    var es := [AuthChanged(true), AuthChanged(false), UserResolved(Some(a))];
    var s0 := Mount(store).state;
    var s1 := Step(s0, es[0]).state;
    var s2 := Step(s1, es[1]).state;
    var s3 := Step(s2, es[2]).state;
    assert s1 == AppState(true, None, [], true, store);
    assert s2 == AppState(false, None, [], true, store);
    assert s3 == AppState(false, Some(a), [], true, store);
    assert Run(s0, es) == Run(s1, es[1..]) == Run(s2, es[2..]) == Run(s3, []);
  }

  /** A user held while signed out is the one whose list the next sign-in loads and then saves under B. */
  lemma HeldUserLeaksIntoNextSignIn(s: AppState, b: User)
    requires !s.isAuthenticated && s.wasAuthenticated && s.user.Some? && s.user.value.id != b.id
    requires Key(s.user.value) in s.store && Key(b) !in s.store
    ensures var r := Run(s, [AuthChanged(true), UserResolved(Some(b))]);
            && r.Ready() && r.user == Some(b) && r.todos == s.store[Key(s.user.value)]
            && Key(b) in r.store && r.store[Key(b)] == s.store[Key(s.user.value)]
  {
    var es := [AuthChanged(true), UserResolved(Some(b))];
    var s1 := Step(s, es[0]).state;
    var s2 := Step(s1, es[1]).state;
    KeysSeparateUsers(s.user.value, b);
    assert s1.todos == s.store[Key(s.user.value)] && s1.store == s.store && s1.isAuthenticated;
    assert s2.todos == s1.todos;
    assert Run(s, es) == Run(s1, es[1..]) == Run(s2, []);
  }

  lemma {:induction false} RunAppend(s: AppState, a: seq<Event>, b: seq<Event>)
    ensures Run(s, a + b) == Run(Run(s, a), b)
    decreases |a|
  {
    if |a| == 0 {
      assert a + b == b;
    } else {
      assert (a + b)[0] == a[0];
      assert (a + b)[1..] == a[1..] + b;
      RunAppend(Step(s, a[0]).state, a[1..], b);
    }
  }

  /** A user with nothing stored signs in: the list starts empty and an empty list is saved. */
  lemma SignInWithNothingStored(store: Store, u: User)
    requires Key(u) !in store
    ensures var s := Run(Mount(store).state, [AuthChanged(true), UserResolved(Some(u))]);
            && s.Ready() && s.user == Some(u) && s.wasAuthenticated
            && s.todos == [] && s.store == store[Key(u) := []]
  {
    var es := [AuthChanged(true), UserResolved(Some(u))];
    var s0 := Mount(store).state;
    var s1 := Step(s0, es[0]).state;
    var s2 := Step(s1, es[1]).state;
    assert s1.user.None? && s1.store == store && s1.wasAuthenticated && s1.todos == [];
    assert s2.todos == [];
    assert Run(s0, es) == Run(s1, es[1..]) == Run(s2, []);
  }

  /**
   * Adding one todo to an empty list, toggling it and signing out: storage follows every
   * change, and still holds the toggled list after sign-out while memory is emptied.
   */
  lemma AddToggleSignOut(s: AppState, stamp: int)
    requires Valid(s) && s.Ready() && s.todos == []
    ensures var fields := map["text" := Str("a"), "completed" := Bool(false)];
            var added := Step(s, TodosChanged(Add(stamp, fields))).state;
            var toggled := Step(added, TodosChanged(Toggle(Num(stamp)))).state;
            var out := Step(toggled, AuthChanged(false)).state;
            && added.todos == [Todo(map["id" := Num(stamp)] + fields)]
            && added.store == s.store[Key(s.user.value) := added.todos]
            && |toggled.todos| == 1 && toggled.todos[0].Get("completed") == Bool(true)
            && toggled.store == s.store[Key(s.user.value) := toggled.todos]
            && out.todos == [] && out.store == toggled.store
  {
    var fields := map["text" := Str("a"), "completed" := Bool(false)];
    var added := Step(s, TodosChanged(Add(stamp, fields))).state;
    assert added.todos[0].Get("completed") == Bool(false);
    assert added.todos[0].Id() == Num(stamp);
    var toggled := Step(added, TodosChanged(Toggle(Num(stamp)))).state;
    assert toggled.todos[0].Get("completed") == Bool(true);
  }
}

=== FILE: todos.dfy ===
/**
 * The todo list operations of the application component (`addTodo`, `updateTodo`,
 * `deleteTodo`, `toggleComplete`). A todo is a JavaScript object: a map from field names to
 * primitive values, where reading a missing field yields `undefined`.
 */
module Todos {

  /** The primitive JavaScript values a todo field can hold. `===` on these is structural equality. */
  datatype Value = Undefined | Null | Bool(b: bool) | Num(n: int) | Str(s: string)

  /** JavaScript truthiness, so that `!v` is `!Truthy(v)`. */
  predicate Truthy(v: Value) {
    match v
    case Undefined => false
    case Null => false
    case Bool(b) => b
    case Num(n) => n != 0
    case Str(s) => s != ""
  }

  datatype Todo = Todo(fields: map<string, Value>) {

    /** `t[k]`: a missing field reads as `undefined`. */
    function Get(k: string): Value {
      if k in fields then fields[k] else Undefined
    }

    /** `t.id`, the field every list operation matches on. */
    function Id(): Value {
      Get("id")
    }

    /** `{ ...t, ...patch }`: the patch's fields win, every other field is kept. */
    function Merge(patch: map<string, Value>): (t: Todo)
      ensures forall k :: k in patch ==> t.Get(k) == patch[k]
      ensures forall k :: k !in patch ==> t.Get(k) == Get(k)
    {
      Todo(fields + patch)
    }

    /** `{ ...t, completed: !t.completed }`. */
    function Toggled(): (t: Todo)
      ensures t.Get("completed") == Bool(!Truthy(Get("completed")))
      ensures forall k :: k != "completed" ==> t.Get(k) == Get(k)
    {
      Todo(fields["completed" := Bool(!Truthy(Get("completed")))])
    }
  }

  /** True when some element of `todos` carries the id `id`. */
  predicate HasId(todos: seq<Todo>, id: Value) {
    exists i :: 0 <= i < |todos| && todos[i].Id() == id
  }

  /**
   * `addTodo(todo)` with `Date.now()` supplied as `stamp`: `{ id: Date.now(), ...todo }` is
   * prepended, so a caller-supplied `id` overrides the generated one.
   */
  function AddTodo(todos: seq<Todo>, stamp: int, fields: map<string, Value>): (r: seq<Todo>)
    ensures |r| == |todos| + 1 && r[1..] == todos
    ensures forall k :: k in fields ==> r[0].Get(k) == fields[k]
    ensures r[0].Id() == (if "id" in fields then fields["id"] else Num(stamp))
    ensures r[0].fields.Keys == fields.Keys + {"id"}
  {
    [Todo(map["id" := Num(stamp)] + fields)] + todos
  }

  /** `todos.map(t => t.id === id ? f(t) : t)`. */
  function MapMatching(todos: seq<Todo>, id: Value, f: Todo -> Todo): (r: seq<Todo>)
    ensures |r| == |todos|
    ensures forall i :: 0 <= i < |todos| ==> r[i] == (if todos[i].Id() == id then f(todos[i]) else todos[i])
  {
    if |todos| == 0 then []
    else [if todos[0].Id() == id then f(todos[0]) else todos[0]] + MapMatching(todos[1..], id, f)
  }

  /** `updateTodo(id, todo)`: merges the patch into every element whose id matches. */
  function UpdateTodo(todos: seq<Todo>, id: Value, patch: map<string, Value>): (r: seq<Todo>)
    ensures |r| == |todos|
    ensures forall i :: 0 <= i < |todos| && todos[i].Id() != id ==> r[i] == todos[i]
    ensures forall i, k :: 0 <= i < |todos| && todos[i].Id() == id ==>
      r[i].Get(k) == (if k in patch then patch[k] else todos[i].Get(k))
    ensures !HasId(todos, id) ==> r == todos
  {
    MapMatching(todos, id, (t: Todo) => t.Merge(patch))
  }

  /** `toggleComplete(id)`: flips `completed` on every element whose id matches. */
  function ToggleComplete(todos: seq<Todo>, id: Value): (r: seq<Todo>)
    ensures |r| == |todos|
    ensures forall i :: 0 <= i < |todos| && todos[i].Id() != id ==> r[i] == todos[i]
    ensures forall i :: 0 <= i < |todos| && todos[i].Id() == id ==> r[i] == todos[i].Toggled()
    ensures forall i :: 0 <= i < |todos| && todos[i].Id() == id ==>
      r[i].Get("completed") == Bool(!Truthy(todos[i].Get("completed")))
    ensures forall i, k :: 0 <= i < |todos| && k != "completed" ==> r[i].Get(k) == todos[i].Get(k)
    ensures !HasId(todos, id) ==> r == todos
  {
    MapMatching(todos, id, (t: Todo) => t.Toggled())
  }

  /** `todos.filter(t => t.id !== id)`. */
  function Keep(todos: seq<Todo>, id: Value): seq<Todo> {
    if |todos| == 0 then []
    else (if todos[0].Id() == id then [] else [todos[0]]) + Keep(todos[1..], id)
  }

  lemma {:induction false} KeepKeepsNonMatching(todos: seq<Todo>, id: Value)
    ensures forall t :: t in Keep(todos, id) <==> t in todos && t.Id() != id
    ensures |Keep(todos, id)| <= |todos|
    ensures !HasId(todos, id) ==> Keep(todos, id) == todos
    ensures HasId(todos, id) ==> |Keep(todos, id)| < |todos|
    decreases |todos|
  {
    if |todos| > 0 {
      KeepKeepsNonMatching(todos[1..], id);
      assert todos == [todos[0]] + todos[1..];
      HasIdOfTail(todos, id);
    }
  }

  /** An id occurs in a non-empty list exactly when it is the head's or occurs in the tail. */
  lemma HasIdOfTail(todos: seq<Todo>, id: Value)
    requires |todos| > 0
    ensures HasId(todos, id) <==> todos[0].Id() == id || HasId(todos[1..], id)
  {
    if HasId(todos[1..], id) {
      var i :| 0 <= i < |todos[1..]| && todos[1..][i].Id() == id;
      assert todos[i + 1].Id() == id;
    }
    if HasId(todos, id) && todos[0].Id() != id {
      var i :| 0 <= i < |todos| && todos[i].Id() == id;
      assert todos[1..][i - 1].Id() == id;
    }
  }

  lemma {:induction false} KeepDistributes(a: seq<Todo>, b: seq<Todo>, id: Value)
    ensures Keep(a + b, id) == Keep(a, id) + Keep(b, id)
    decreases |a|
  {
    if |a| == 0 {
      assert a + b == b;
    } else {
      assert (a + b)[0] == a[0];
      assert (a + b)[1..] == a[1..] + b;
      KeepDistributes(a[1..], b, id);
    }
  }

  /** `deleteTodo(id)`: keeps exactly the elements whose id differs. */
  function DeleteTodo(todos: seq<Todo>, id: Value): (r: seq<Todo>)
    ensures forall t :: t in r <==> t in todos && t.Id() != id
    ensures |r| <= |todos|
    ensures |r| == |todos| <==> !HasId(todos, id)
    ensures !HasId(todos, id) ==> r == todos
  {
    KeepKeepsNonMatching(todos, id);
    Keep(todos, id)
  }

  /** Deletion works element by element, so it keeps the relative order of what survives. */
  lemma DeleteDistributes(a: seq<Todo>, b: seq<Todo>, id: Value)
    ensures DeleteTodo(a + b, id) == DeleteTodo(a, id) + DeleteTodo(b, id)
  {
    KeepDistributes(a, b, id);
  }

  /** Deleting the id an add generated undoes that add. */
  lemma {:induction false} DeleteUndoesAdd(todos: seq<Todo>, stamp: int, fields: map<string, Value>)
    requires "id" !in fields
    requires !HasId(todos, Num(stamp))
    ensures DeleteTodo(AddTodo(todos, stamp, fields), Num(stamp)) == todos
  {
    var added := AddTodo(todos, stamp, fields);
    assert added == [added[0]] + todos;
    DeleteDistributes([added[0]], todos, Num(stamp));
  }

  /** Flipping a boolean `completed` twice gives back the same record. */
  lemma ToggledInvolution(t: Todo)
    requires t.Get("completed").Bool?
    ensures t.Toggled().Toggled() == t
  {
    assert t.Toggled().Toggled().fields == t.fields;
  }

  /** Toggling twice restores the list, provided every matching element's `completed` is a boolean. */
  lemma {:induction false} ToggleTwiceRestores(todos: seq<Todo>, id: Value)
    requires forall i :: 0 <= i < |todos| && todos[i].Id() == id ==> todos[i].Get("completed").Bool?
    ensures ToggleComplete(ToggleComplete(todos, id), id) == todos
  {
    var once := ToggleComplete(todos, id);
    var twice := ToggleComplete(once, id);
    forall i | 0 <= i < |todos|
      ensures twice[i] == todos[i]
    {
      if todos[i].Id() == id {
        assert once[i] == todos[i].Toggled();
        assert once[i].Id() == id;
        assert twice[i] == once[i].Toggled();
        ToggledInvolution(todos[i]);
      }
    }
  }

  /** Toggling twice an element that has no `completed` field leaves `completed: false` behind. */
  lemma ToggleTwiceAddsCompleted()
    ensures var t := Todo(map["id" := Num(1)]);
            ToggleComplete(ToggleComplete([t], Num(1)), Num(1)) != [t]
  {
    var t := Todo(map["id" := Num(1)]);
    var once := ToggleComplete([t], Num(1));
    assert once[0] == t.Toggled();
    var twice := ToggleComplete(once, Num(1));
    assert twice[0] == once[0].Toggled();
    assert "completed" in twice[0].fields;
  }

  /** The four list operations, as the events that change the collection. */
  datatype TodoOp =
    | Add(stamp: int, fields: map<string, Value>)
    | Update(id: Value, patch: map<string, Value>)
    | Delete(id: Value)
    | Toggle(id: Value)

  function Apply(todos: seq<Todo>, op: TodoOp): seq<Todo> {
    match op
    case Add(stamp, fields) => AddTodo(todos, stamp, fields)
    case Update(id, patch) => UpdateTodo(todos, id, patch)
    case Delete(id) => DeleteTodo(todos, id)
    case Toggle(id) => ToggleComplete(todos, id)
  }
}
